=== FILE: README.md ===
# Collage-Images: access control for shared images, in Dafny

Collage-Images lets an account upload images, optionally protect each one with
a password, and share it. An Express back end keeps one record per image
(file name, optional bcrypt hash, owner, creation time). It decides who may
receive an image's bytes on three paths:

- the owner's dashboard (`GET /serve/:id`, behind a bearer token);
- a shared link that may carry a password (`POST /view/:id`, no token);
- public thumbnails (`GET /public/:id`, no token, never a protected image).

The owner can also list, re-protect, verify and delete images. Accounts
register with name, email and password, and login issues a one-hour JWT. Two React components keep client-side lists:
the dashboard's search/filter/statistics, and the collage's queue of
pending uploads.

This project models that core as pure functions over immutable values:

- the image store is a `map<ObjectId, ImageRecord>`;
- each route handler maps the store, the caller and the request to a
  tagged reply and the new store;
- the router (`ImageRoutes.Handle`) first runs the bearer gate, then the
  handler;
- bcrypt is an ideal hash whose salt is a parameter;
- JWT verification is a lookup in the keyring that the signing secret
  induces, plus the expiry test;
- MongoDB's id cast, the required-field checks and duplicate keys become
  explicit error replies;
- the React state updates become functions from the old state to the new.

Modules follow the program's files: `Basics` (option type and JavaScript
truthiness of an optional string), `Strings` (`startsWith`, `includes`,
ASCII `toLowerCase`, `split(' ')`), `ObjectIds`, `Bcrypt`, `Jwt`,
`BearerAuth` (both header middlewares), `Accounts` (authController.js),
`ImageModel` (Image.js), `ImageController` (imageController.js),
`ImageRoutes` (imageRoutes.js), `Lists`, `Dashboard` (Dashboard.jsx),
`Collage` (Collage.jsx), and `EndToEnd` (properties that span several of
them).

Behaviours of the code that the model keeps:

- Login answers 400 "Invalid email or password" for bad credentials.
- Login compares the stored password with the submitted one as plain text.
  Registration passes the password to `new User` as sent.
- The login reply carries name and email but not the account id.
- The bearer middleware answers every verification failure with the same
  "Invalid token".
- The view route answers 401 for a missing or a wrong password.
- The byte-serving routes word the two kinds of 404 differently ("Image not
  found" and "Image file not found"; "File not found" on the public path).
- The image router mounts the middleware of `backend/middleware/auth.js`. The
  `verifyToken` of `backend/middleware/authMiddleware.js` is modelled on its
  own because no image route uses it.

A path that hands the id to `Image.findById` throws a cast error when the
text is not 24 hex digits. The handler's `catch` turns that into a 500. The
model keeps that outcome as `Lookup.Malformed` and `ServerError`, and ids
compare in the lower-case form that `ObjectId.toString()` produces.

## Model

| member | source | states |
|---|---|---|
| Strings.Includes | src/components/Dashboard.jsx:147-148 | `includes` is true exactly when the needle occurs at some position of the text |
| Strings.EmptyOccursEverywhere | src/components/Dashboard.jsx:147-148 | the empty search term is contained in every text |
| Strings.Split | backend/middleware/auth.js:13 | `split(' ')` yields one field more than there are spaces, no field contains a space, and the first field is the text up to the first space |
| Strings.JoinSplit | backend/middleware/auth.js:13 | joining the fields of `split(' ')` with single spaces gives back the header exactly |
| Strings.SplitJoin | backend/middleware/authMiddleware.js:10 | splitting space-free fields joined by single spaces gives back those fields |
| Strings.SplitAfterWord | backend/middleware/auth.js:13 | a space-free word glued to a text only extends the text's first field |
| Strings.SecondFieldAfterWord | backend/middleware/authMiddleware.js:10 | for "word rest", field 1 is the first field of `rest` |
| ObjectIds.CastCanonical | backend/models/Image.js:12-16 | a stored id is valid id text and casts to itself |
| ObjectIds.CastAgreesUpToCase | backend/routes/imageRoutes.js:56 | two id texts name the same record exactly when they are equal ignoring letter case |
| Bcrypt.HashOf | backend/controllers/imageController.js:14 | the stored hash records the cost factor 10 |
| Bcrypt.HashOfMatches | backend/controllers/imageController.js:82 | `compare` accepts the password a hash was made from, whatever the salt |
| Bcrypt.OnlyPreimageMatches | backend/routes/imageRoutes.js:106 | `compare` accepts exactly the hashed password and no other |
| Bcrypt.SaltsDistinguishHashes | backend/routes/imageRoutes.js:67 | the same password hashed twice gives different stored values, both of which accept it |
| Jwt.Sign | backend/controllers/authController.js:40-42 | the issued claims carry the account id, are stamped with the signing time and expire one hour after it |
| Jwt.Verify | backend/middleware/auth.js:18 | a token verifies exactly when it is non-empty, signed by the secret and unexpired, and then it yields the claims it was signed with |
| Jwt.SignVerifyRoundTrip | backend/controllers/authController.js:40-42 | a token minted at login verifies to the same account id exactly during the following hour |
| Jwt.ExpiredAfterOneHour | backend/controllers/authController.js:41 | the boundary instances of the round trip: exactly at the end of the hour, and one second later, the token is refused |
| BearerAuth.RequireBearer | backend/middleware/auth.js:3-26 | a missing, empty or non-"Bearer " header gets 401 "No token provided"; otherwise the text after the prefix up to the next space is verified and gives either the caller's claims or 401 "Invalid token" |
| BearerAuth.BearerTokenIsSecondField | backend/middleware/auth.js:8-13 | after the prefix test, `split(' ')[1]` is always defined and is the token after "Bearer " |
| BearerAuth.VerifyToken | backend/middleware/authMiddleware.js:3-22 | no header gets "No token provided", an absent or empty second field gets "Token missing", otherwise verification gives the claims or "Invalid token" |
| BearerAuth.GatesPassOnlyVerifiedClaims | backend/middleware/auth.js:16-21 | either gate calls `next` only with the claims of a signed, unexpired token |
| BearerAuth.VerifyTokenIgnoresScheme | backend/middleware/authMiddleware.js:10-16 | headers with the same second field get the same answer, whatever the scheme word |
| BearerAuth.GatesAgreeOnBearerHeaders | backend/middleware/authMiddleware.js:10-21 | on a "Bearer " header with a non-empty token both gates give the same answer |
| BearerAuth.TokenOfBearerAB | backend/middleware/auth.js:13 | "Bearer a b" carries the token "a" |
| BearerAuth.DoubleSpaceHeader | backend/middleware/auth.js:13-25 | "Bearer  x" carries the empty token: one gate answers "Invalid token", the other "Token missing" |
| BearerAuth.SchemeOnlyHeaders | backend/middleware/authMiddleware.js:10-13 | "Bearer" and "Bearer " get "Token missing" |
| BearerAuth.LowerCaseSchemeRefused | backend/middleware/auth.js:8-11 | the prefix test is case-sensitive: "bearer t" gets "No token provided" |
| Accounts.Register | backend/controllers/authController.js:4-21 | a known email gets 400 "User already exists" with the accounts unchanged; otherwise exactly one account with the given name, email and password is added under a fresh id and the reply is 201; an unused email whose save collides on the id answers 500 with the accounts unchanged |
| Accounts.RegisterAddsOne | backend/controllers/authController.js:13-16 | registration keeps emails and ids unique and grows the collection by one on success |
| Accounts.Login | backend/controllers/authController.js:23-56 | login succeeds exactly for a known email with an equal password; on success the token holds only the id and expires an hour later, and the reply names the account by name and email; every failure is 400 "Invalid email or password" |
| Accounts.RegisterThenLogin | backend/controllers/authController.js:13-42 | a freshly registered account logs in with the same credentials, and its token identifies it for the next hour |
| Accounts.LoginFailuresIndistinguishable | backend/controllers/authController.js:28-30 | a wrong password and an unknown email get the same answer |
| ImageModel.NewImage | backend/models/Image.js:3-21 | a record validates exactly when the filename is non-empty and the owner is an id; it carries the given filename, owner, password and creation time |
| ImageModel.PasswordDefaultsToNull | backend/models/Image.js:8-11 | a record created without a password is public |
| ImageModel.Find | backend/controllers/imageController.js:37-40 | `findById` fails to cast a non-id text, misses an unknown id, and otherwise returns the stored record under the cast id |
| ImageModel.HashIfGiven | backend/routes/imageRoutes.js:67 | a hash is stored exactly when the password is truthy; it accepts that password, never the empty one, and uses cost 10 |
| ImageController.UploadImage | backend/controllers/imageController.js:6-30 | no file gives 400 "No file uploaded" with the store unchanged; otherwise a valid upload adds exactly one record, owned by the caller and protected exactly when the password is non-empty, and returns its id; any other failure is 500 with the store unchanged |
| ImageController.UploadPreservesInvariant | backend/controllers/imageController.js:8-23 | uploading never stores an empty filename or a hash the empty password opens |
| ImageController.Denial | backend/controllers/imageController.js:43-45 | each path refuses exactly when the reference access rule forbids it: the dashboard path when the caller is not the owner and the image is protected, the shared link when the password is absent or wrong, the public path when protected |
| ImageController.Serve | backend/controllers/imageController.js:37-60 | a bad id is 500 and a missing one 404; bytes are streamed exactly when the record exists, the path may see it and its file is on disk; a refused request gets exactly the path's refusal, and an allowed one whose file is gone gets that path's 404 "file not found" message |
| ImageController.ServeImage | backend/controllers/imageController.js:33-66 | the dashboard path answers 403 "Access denied" exactly when a non-owner asks for a protected image; the owner is never refused; an allowed request whose file is gone answers 404 "Image file not found" |
| ImageController.ViewImage | backend/controllers/imageController.js:69-105 | a public image is served to anyone; a protected one answers 401 "Password required" without a password and 401 "Incorrect password" for a wrong one; the right password streams the file, or answers 404 "Image file not found" when it is gone |
| ImageController.ServePublicImage | backend/controllers/imageController.js:107-123 | the public path answers 403 "Protected image" for every protected image and streams only public ones; a public one is streamed when its file is on disk and answers 404 "File not found" otherwise |
| ImageController.DecisionPrecedesFileCheck | backend/controllers/imageController.js:43-60 | when a path may not see an image, the answer does not depend on the disk and is never a stream |
| ImageController.FileCheckOnlyAfterAllow | backend/controllers/imageController.js:86-91 | the missing-file 404 only arises after access was granted |
| ImageController.PublicIsStrictest | backend/controllers/imageController.js:112 | whatever the public path streams, the other two paths stream too, for every caller and password |
| ImageRoutes.Position | backend/routes/imageRoutes.js:22 | the insertion point of a record lies after every strictly newer entry and before the first one that is not newer |
| ImageRoutes.InsertKeepsOrder | backend/routes/imageRoutes.js:22 | inserting at that point keeps the list newest first |
| ImageRoutes.InsertKeepsIdsDistinct | backend/routes/imageRoutes.js:22 | inserting a record whose id is not listed yet keeps the ids distinct |
| ImageRoutes.InsertAddsId | backend/routes/imageRoutes.js:22 | inserting a record adds exactly its id and no entry other than it |
| ImageRoutes.ListOwn | backend/routes/imageRoutes.js:22 | the listing holds every record of the owner exactly once, as stored, and nothing else, newest first |
| ImageRoutes.ListImages | backend/routes/imageRoutes.js:20-28 | the list route answers the caller's own listing, or 500 when the caller id is not an id |
| ImageRoutes.CheckProtection | backend/routes/imageRoutes.js:31-48 | the check route answers 404 for an unknown id, else whether a password is required, which holds exactly when the image is protected |
| ImageRoutes.SetPassword | backend/routes/imageRoutes.js:51-77 | 404 comes before 403; a non-owner changes nothing; the owner's image becomes protected exactly when the password is truthy, the new hash accepts it, and no other record or field changes |
| ImageRoutes.VerifyPassword | backend/routes/imageRoutes.js:80-112 | a non-owner gets 403 even for an existing image; for the owner, validity agrees with the shared-link access rule: any input opens a public image, and only a non-empty match opens a protected one |
| ImageRoutes.DeleteImage | backend/routes/imageRoutes.js:129-159 | 404 comes before 403; a non-owner changes nothing; the owner removes exactly that record and every other record stays as it was |
| ImageRoutes.SetThenVerify | backend/routes/imageRoutes.js:67-107 | after the owner sets a password p, verifying p succeeds, any other input fails, the check route reports protection and the shared link refuses other inputs |
| ImageRoutes.ClearThenVerify | backend/routes/imageRoutes.js:67-98 | after the password is cleared, every input verifies and the public path no longer refuses the image |
| ImageRoutes.NonOwnerChangesNothing | backend/routes/imageRoutes.js:62-64 | a second account's writes leave the store unchanged, and its delete and verify are refused |
| ImageRoutes.WritersPreserveInvariant | backend/routes/imageRoutes.js:67-70 | setting a password and deleting keep every stored hash one that the empty password does not open |
| ImageRoutes.EmptyGuardRedundantOnWellFormedStore | backend/routes/imageRoutes.js:101-106 | on a well-formed store, accepting a password on a protected image is the same as `compare` against its hash |
| ImageRoutes.OpenRoute | backend/routes/imageRoutes.js:117-123 | the check, view and public routes never change the store |
| ImageRoutes.TokenRoute | backend/routes/imageRoutes.js:115-120 | the token routes other than upload, password change and delete never change the store |
| ImageRoutes.Handle | backend/routes/imageRoutes.js:20-159 | a token route with a refused header answers 401 with the gate's message and changes nothing; otherwise the handler runs for the caller in the token, and the list route answers 500 when that caller id is not an id; read-only routes leave the store unchanged and every route keeps the store well formed |
| Lists.Filter | src/components/Dashboard.jsx:146-153 | filtering keeps exactly the elements that pass, each as often as it occurs, in their original order |
| Lists.FilterKeepsAll | src/components/Dashboard.jsx:147-149 | when every element passes, filtering returns the list unchanged |
| Dashboard.FilteredImages | src/components/Dashboard.jsx:146-153 | the shown list is an order-preserving subsequence, and an image is shown exactly when the lower-cased term occurs in its lower-cased name or id and it passes the filter |
| Dashboard.ShowAllByDefault | src/components/Dashboard.jsx:147-149 | filter "all" with an empty search shows every image in order |
| Dashboard.UnknownFilterHidesAll | src/components/Dashboard.jsx:149-151 | a filter value other than the three known ones hides every image |
| Dashboard.ProtectedAndPublicSplitAll | src/components/Dashboard.jsx:150-151 | for any search, the protected and public views together are as long as the "all" view |
| Dashboard.CountsAddUp | src/components/Dashboard.jsx:158-160 | the protected and public tiles add up to the total |
| Dashboard.Recent | src/components/Dashboard.jsx:361 | the recent strip shows the first four images, or all of them when there are fewer |
| Dashboard.AfterDelete | src/components/Dashboard.jsx:194-195 | after a successful delete the list keeps, in order, exactly the entries with another id; after a failed one it is unchanged |
| Dashboard.DeleteOfUnlistedIdIsNoop | src/components/Dashboard.jsx:195 | removing an id that is not listed changes nothing |
| Collage.ProcessFiles | src/components/Collage.jsx:77-87 | one entry per file is appended after the existing ones, with no password, not uploaded and no server id |
| Collage.HandleDrop | src/components/Collage.jsx:93-98 | the dropped image files, in drop order and as often as they were dropped, are appended as fresh entries (no password, not uploaded, no server id) after the existing ones, and nothing else is; if none of the dropped files is an image the list is unchanged |
| Collage.ImageFiles | src/components/Collage.jsx:96 | the kept files are the dropped files with an image MIME type, in drop order, each as often as it was dropped, and all of them when every file is an image |
| Collage.DropAppendsImageFiles | src/components/Collage.jsx:96-97 | appending a drop's image files adds exactly one fresh entry per kept file, in drop order, and nothing else |
| Collage.AppendedAreFresh | src/components/Collage.jsx:78-86 | the appended entries are the fresh entries of the files, one each, in order |
| Collage.UpdatePassword | src/components/Collage.jsx:100-102 | only the password of entries with the given id changes; length, order and every other field stay |
| Collage.UpdatePasswordLastWins | src/components/Collage.jsx:100-102 | of two password edits the last one wins |
| Collage.BeginUpload | src/components/Collage.jsx:106-108 | without a token only the message "Please login first." is set; with one the entry joins the uploading set |
| Collage.MarkUploaded | src/components/Collage.jsx:123 | exactly the entries with the id are marked uploaded with the server id; the others are unchanged |
| Collage.FinishUpload | src/components/Collage.jsx:114-140 | on every outcome the entry leaves the uploading set; success marks the entry, and then either reports the password or opens the prompt and leaves the message as it was; a refusal shows the server's message or "Upload failed"; an error shows "Upload failed. Try again." |
| Collage.NoTokenTouchesOnlyMessage | src/components/Collage.jsx:107 | without a token the upload changes only the message |
| Collage.UploadingOnlyDuringRequest | src/components/Collage.jsx:108-139 | the entry is in the uploading set during the request and out of it afterwards, whatever the outcome |
| Collage.SuccessMarksOnlyTheEntry | src/components/Collage.jsx:122-131 | on success only the matching entries change, and the password prompt opens exactly when the entry had no password |
| EndToEnd.LoginTokenOpensImageRoutes | backend/controllers/authController.js:40-42 | a login token sent as "Bearer <token>" within the hour passes the image routes' gate as the account that logged in |
| EndToEnd.LoginTokenExpires | backend/controllers/authController.js:40-42 | the same header an hour or more later gets "Invalid token" |
| EndToEnd.PromptOpensExactlyForPublicUploads | src/components/Collage.jsx:112-131 | the server protects the upload exactly when the entry had a password, and the client prompts for one exactly when the server stored a public image |
| EndToEnd.ProtectedUploadScenario | backend/controllers/imageController.js:78-84 | after a protected upload, a wrong or absent password is refused on the shared link, the right one streams, another account is denied on the dashboard path and the public path refuses everyone |
| EndToEnd.PublicUploadScenario | backend/controllers/imageController.js:110-119 | after an upload without a password the public path streams the image |
| EndToEnd.ForeignDeleteScenario | backend/routes/imageRoutes.js:138-140 | another account's delete is refused and the owner can still fetch the image |

## Left out

- File system: `existsSync` is membership in a set of file names. Streaming is the `Stream` reply. The `fs.unlink` of the delete route is not modelled, because its failure is only logged.
- Multer disk storage and its `Date.now()`-prefixed file names: an upload carries the stored file name as given.
- bcrypt internals: the hash is ideal, so collisions and the 72-byte truncation of long passwords are not modelled. The random salt is a parameter.
- JWT signatures and the secret: they are abstracted into a keyring of signed tokens. Only `exp` is checked, as the library does by default. There is no clock tolerance.
- MongoDB: the 12-byte binary form of ObjectId is not modelled. JSON body values that are not strings are not modelled. Database failures other than a cast error, a failed required-field check and a duplicate id are not modelled.
- Route matching by path pattern: a request arrives already matched to its handler. For example, `GET /serve/check` would reach the check route with the id "serve".
- The user schema: `backend/models/User.js` is not part of this model. Accounts are a map from email to account. The model assumes the schema stores name, email and password exactly as given, with no hashing hook and no setter that rewrites the email; `RegisterThenLogin` rests on that assumption.
- `findOne({ email })` with an absent email, which matches an arbitrary account, is not modelled: emails are strings here.
- The stray `localStorage.setItem` after the login reply (backend/controllers/authController.js:51) would throw after the reply is sent. It does not change the reply, so it is not modelled.
- The debug logging of headers, tokens and the secret (backend/middleware/auth.js:6-19): it has no effect on replies.
- The list route returns the stored password hashes to the client (backend/routes/imageRoutes.js:22-23). The model's `Entry` carries the record, hash included, but no property is stated about it.
- Concurrency: every handler runs atomically, so interleaved requests are not modelled.
- Unicode case folding: `toLowerCase` is modelled for ASCII letters only.
- The dashboard's "This Week" tile (src/components/Dashboard.jsx:162-166): it depends on the wall clock.
- The React UI is not modelled: rendering, modals, notifications, clipboard, `window.open`, `URL.createObjectURL`, background colours, `onRefresh` callbacks and the fetch calls themselves. The outcome of an upload request is a parameter of `Collage.FinishUpload`. `src/App.jsx`, `src/components/ImageEditorModal.jsx`, `src/services/authService.js` and the fetch flow of `src/components/ViewImage.jsx` are outside the model.
- Collage.UpdatePassword: only entries added locally by a drop are modelled, and each of them has a numeric id. The list is first seeded from the dashboard's `uploadedImages` (`src/components/Collage.jsx:73-75`). Those server records have no `id`, `file` or `uploaded` field, so `updatePassword(undefined, value)` at line 101 would rewrite all of them at once. `Pending` has no such entry, so this is not modelled.
- Collage.MarkUploaded: for the same reason, the model does not cover the `i.id === img.id` map at `src/components/Collage.jsx:123` marking every seeded server record when the uploaded entry is one of them.
- Collage.UploadToServer: it composes `BeginUpload` and `FinishUpload` and has no contract of its own. Its properties are the lemmas `NoTokenTouchesOnlyMessage`, `UploadingOnlyDuringRequest` and `SuccessMarksOnlyTheEntry`.
- ImageRoutes.ListOwn: MongoDB leaves the order of records with equal `createdAt` open, so the contract leaves it open too.
- Bcrypt.HashOf: its contract states only the cost factor. What a hash accepts is stated by `HashOfMatches` and `OnlyPreimageMatches`.

=== FILE: accounts.dfy ===
/** `backend/controllers/authController.js`: registration and login over the
    user collection, modelled as a map from email to account (both
    handlers look accounts up with `User.findOne({ email })`). */
module Accounts {

  import opened ObjectIds
  import opened Jwt

  /** The password is kept as sent: the handlers store and compare it in
      plain text. */
  datatype User = User(id: ObjectId, name: string, email: string, password: string)

  type Users = map<string, User>

  /** Every account sits under its own email, and ids are unique. */
  predicate WellFormed(users: Users)
  {
    && (forall e | e in users :: users[e].email == e)
    && (forall e1, e2 | e1 in users && e2 in users && e1 != e2 :: users[e1].id != users[e2].id)
  }

  predicate IdInUse(users: Users, id: ObjectId)
  {
    exists e | e in users :: users[e].id == id
  }

  const AlreadyExists := "User already exists"
  const Registered := "User registered successfully"
  const InvalidCredentials := "Invalid email or password"
  const LoginSuccessful := "Login successful"

  datatype Reply =
    | Created(message: string)                                     // 201
    | LoggedIn(message: string, name: string, email: string, token: Claims)  // 200 { message, user: { name, email }, token }
    | BadRequest(message: string)                                  // 400
    | ServerError                                                  // 500

  datatype Step = Step(reply: Reply, users: Users)

  /** `register`: `newId` is the id Mongo generates for the new document;
      saving under an id already in use fails as a duplicate key. */
  function Register(users: Users, name: string, email: string, password: string, newId: ObjectId): (s: Step)
    ensures email in users ==> s == Step(BadRequest(AlreadyExists), users)
    ensures s.reply == Created(Registered) <==> email !in users && !IdInUse(users, newId)
    ensures email !in users && IdInUse(users, newId) ==> s.reply == ServerError
    ensures s.reply.Created? ==> s.users == users[email := User(newId, name, email, password)]
    ensures !s.reply.Created? ==> s.users == users
  {
    if email in users then Step(BadRequest(AlreadyExists), users)
    else if IdInUse(users, newId) then Step(ServerError, users)
    else Step(Created(Registered), users[email := User(newId, name, email, password)])
  }

  /** Registration adds exactly one account and keeps the collection well
      formed. */
  lemma RegisterAddsOne(users: Users, name: string, email: string, password: string, newId: ObjectId)
    requires WellFormed(users)
    ensures WellFormed(Register(users, name, email, password, newId).users)
    ensures Register(users, name, email, password, newId).reply.Created? ==>
              |Register(users, name, email, password, newId).users| == |users| + 1
  {
  }

  /** `login` at time `now`: an unknown email and a wrong password get the
      same answer; on success the token carries only the account id and
      expires an hour after issue, and the reply names the account by name
      and email only. */
  function Login(users: Users, email: string, password: string, now: int): (r: Reply)
    ensures r.LoggedIn? <==> email in users && users[email].password == password
    ensures !r.LoggedIn? ==> r == BadRequest(InvalidCredentials)
    ensures r.LoggedIn? ==>
              && r.token.id == users[email].id
              && r.token.iat == now && r.token.exp == now + ExpiresIn
              && r.name == users[email].name && r.email == users[email].email
  {
    if email !in users || users[email].password != password then BadRequest(InvalidCredentials)
    else
      var user := users[email];
      LoggedIn(LoginSuccessful, user.name, user.email, Sign(user.id, now))
  }

  /** A freshly registered account can log in with the same credentials,
      and a token for those claims identifies it for the following hour. */
  lemma RegisterThenLogin(users: Users, name: string, email: string, password: string, newId: ObjectId,
                          now: int, keys: Keyring, token: string, later: int)
    requires Register(users, name, email, password, newId).reply.Created?
    ensures var r := Login(Register(users, name, email, password, newId).users, email, password, now);
            && r.LoggedIn? && r.token.id == newId
            && (token != "" && keys == map[token := r.token] ==>
                  (Verify(keys, token, later).Some? <==> later < now + ExpiresIn))
  {
  }

  /** Wrong credentials never reveal whether the email is registered. */
  lemma LoginFailuresIndistinguishable(users: Users, known: string, unknown: string, wrong: string, now: int)
    requires known in users && users[known].password != wrong
    requires unknown !in users
    ensures Login(users, known, wrong, now) == Login(users, unknown, wrong, now)
  {
  }
}

=== FILE: basics.dfy ===
/** Small shared vocabulary: an optional value and JavaScript truthiness of
    optional strings (`undefined`, `null` and `""` are all falsy). */
module Basics {

  datatype Option<+T> = None | Some(value: T)

  /** `!!s` for a request field or header that may be absent: true exactly
      when the field is present and non-empty. */
  predicate Truthy(s: Option<string>)
  {
    s.Some? && s.value != ""
  }
}

=== FILE: bcrypt.dfy ===
/** An ideal model of `bcrypt.hash` / `bcrypt.compare`. A hash commits to the
    password it was made from and to a random salt drawn at hashing time;
    the salt is an explicit parameter because the model has no randomness.
    Only `Matches` looks inside a hash, the way `bcrypt.compare` is the only
    way the program inspects one. */
module Bcrypt {

  /** Cost factor passed by both writers: `bcrypt.hash(password, 10)`. */
  const Rounds: nat := 10

  type Salt = nat

  datatype Hash = Hash(rounds: nat, salt: Salt, preimage: string)

  /** `bcrypt.hash(password, Rounds)` with the given salt. */
  function HashOf(password: string, salt: Salt): (h: Hash)
    ensures h.rounds == Rounds
  {
    Hash(Rounds, salt, password)
  }

  /** `bcrypt.compare(candidate, h)`. */
  predicate Matches(candidate: string, h: Hash)
  {
    candidate == h.preimage
  }

  /** Completeness: the password a hash was made from matches it, whatever
      the salt. */
  lemma HashOfMatches(password: string, salt: Salt)
    ensures Matches(password, HashOf(password, salt))
  {
  }

  /** Soundness of the ideal hash: no other password matches. */
  lemma OnlyPreimageMatches(password: string, other: string, salt: Salt)
    ensures Matches(other, HashOf(password, salt)) <==> other == password
  {
  }

  /** Hashing is not a function of the password alone: two salts give two
      different stored values for the same password, yet both verify it. */
  lemma SaltsDistinguishHashes(password: string, s1: Salt, s2: Salt)
    requires s1 != s2
    ensures HashOf(password, s1) != HashOf(password, s2)
    ensures Matches(password, HashOf(password, s1)) && Matches(password, HashOf(password, s2))
  {
  }
}

=== FILE: bearer_auth.dfy ===
/** The two Express gates over the `Authorization` header:
    the exported middleware of `backend/middleware/auth.js` (used by every
    token-protected image route) and `verifyToken` of
    `backend/middleware/authMiddleware.js`. Each either calls `next()` with
    the decoded claims as `req.user`, or answers 401 with a message. */
module BearerAuth {

  import opened Basics
  import opened Strings
  import opened Jwt

  const NoToken := "No token provided"
  const TokenMissing := "Token missing"
  const InvalidToken := "Invalid token"

  const Scheme := "Bearer "

  datatype Gate =
    | Next(user: Claims)          // `req.user = decoded; next()`
    | Reject(message: string)     // `res.status(401).json({ message })`

  /** The middleware of auth.js: the header must start with the exact,
      case-sensitive "Bearer "; the token is `split(' ')[1]`. */
  function RequireBearer(header: Option<string>, keys: Keyring, now: int): (g: Gate)
    ensures !Truthy(header) ==> g == Reject(NoToken)
    ensures Truthy(header) && !StartsWith(header.value, Scheme) ==> g == Reject(NoToken)
    ensures Truthy(header) && StartsWith(header.value, Scheme) ==>
              var token := Split(header.value[|Scheme|..])[0];
              g == (match Verify(keys, token, now)
                    case Some(c) => Next(c)
                    case None => Reject(InvalidToken))
  {
    if !Truthy(header) || !StartsWith(header.value, Scheme) then
      Reject(NoToken)
    else
      var h := header.value;
      var token := Field(h, 1);
      BearerTokenIsSecondField(h);
      match Verify(keys, token.value, now)
      case Some(decoded) => Next(decoded)
      case None => Reject(InvalidToken)
  }

  /** For a header that passed the prefix test, `split(' ')[1]` is always
      defined and is the text after "Bearer " up to the next space. */
  lemma BearerTokenIsSecondField(h: string)
    requires StartsWith(h, Scheme)
    ensures Field(h, 1) == Some(Split(h[|Scheme|..])[0])
  {
    assert h == "Bearer" + " " + h[|Scheme|..];
    SecondFieldAfterWord("Bearer", h[|Scheme|..]);
  }

  /** `verifyToken` of authMiddleware.js: only the header's presence and a
      non-empty second field are checked, never the scheme word. */
  function VerifyToken(header: Option<string>, keys: Keyring, now: int): (g: Gate)
    ensures !Truthy(header) ==> g == Reject(NoToken)
    ensures Truthy(header) && !Truthy(Field(header.value, 1)) ==> g == Reject(TokenMissing)
    ensures Truthy(header) && Truthy(Field(header.value, 1)) ==>
              g == (match Verify(keys, Field(header.value, 1).value, now)
                    case Some(c) => Next(c)
                    case None => Reject(InvalidToken))
  {
    if !Truthy(header) then Reject(NoToken)
    else
      var token := Field(header.value, 1);
      if !Truthy(token) then Reject(TokenMissing)
      else
        match Verify(keys, token.value, now)
        case Some(decoded) => Next(decoded)
        case None => Reject(InvalidToken)
  }

  /** Both gates let a request through only with claims the keyring vouches
      for and that are unexpired, and then `req.user` is exactly those claims. */
  lemma GatesPassOnlyVerifiedClaims(header: Option<string>, keys: Keyring, now: int)
    ensures RequireBearer(header, keys, now).Next? ==>
              exists t :: t in keys && keys[t] == RequireBearer(header, keys, now).user && now < keys[t].exp
    ensures VerifyToken(header, keys, now).Next? ==>
              exists t :: t in keys && keys[t] == VerifyToken(header, keys, now).user && now < keys[t].exp
  {
  }

  /** The scheme word is ignored by `verifyToken`: two headers with the same
      second field get the same answer, e.g. "Basic t" and "Bearer t". */
  lemma VerifyTokenIgnoresScheme(a: string, b: string, keys: Keyring, now: int)
    requires a != "" && b != ""
    requires Field(a, 1) == Field(b, 1)
    ensures VerifyToken(Some(a), keys, now) == VerifyToken(Some(b), keys, now)
  {
  }

  /** Where the two gates part ways: a header that `verifyToken` accepts is
      refused by auth.js when it lacks the exact prefix; with the prefix and
      a non-empty token the two agree. */
  lemma GatesAgreeOnBearerHeaders(h: string, keys: Keyring, now: int)
    requires StartsWith(h, Scheme)
    requires Split(h[|Scheme|..])[0] != ""
    ensures RequireBearer(Some(h), keys, now) == VerifyToken(Some(h), keys, now)
  {
    BearerTokenIsSecondField(h);
  }

  /** "Bearer a b" carries the token "a". */
  lemma TokenOfBearerAB()
    ensures Field("Bearer a b", 1) == Some("a")
  {
    assert "Bearer a b" == "Bearer" + " " + "a b";
    SecondFieldAfterWord("Bearer", "a b");
    assert "a b" == "a" + " b";
    SplitAfterWord("a", " b");
    assert Split(" b")[0] == "" by {
      assert " b"[0] == ' ';
    }
    assert "a" + "" == "a";
  }

  /** "Bearer  x" (two spaces) carries the empty token: auth.js passes it to
      verification, which refuses it; `verifyToken` calls it missing. */
  lemma DoubleSpaceHeader(keys: Keyring, now: int)
    ensures RequireBearer(Some("Bearer  x"), keys, now) == Reject(InvalidToken)
    ensures VerifyToken(Some("Bearer  x"), keys, now) == Reject(TokenMissing)
  {
  }

  /** "Bearer" and "Bearer " carry no token for `verifyToken`. */
  lemma SchemeOnlyHeaders(keys: Keyring, now: int)
    ensures VerifyToken(Some("Bearer"), keys, now) == Reject(TokenMissing)
    ensures VerifyToken(Some("Bearer "), keys, now) == Reject(TokenMissing)
  {
  }

  /** The prefix test of auth.js is case-sensitive. */
  lemma LowerCaseSchemeRefused(keys: Keyring, now: int)
    ensures RequireBearer(Some("bearer t"), keys, now) == Reject(NoToken)
  {
  }
}

=== FILE: collage.dfy ===
/** The pending-upload list of `src/components/Collage.jsx`: adding picked
    or dropped files, editing an entry's password, and the state updates
    around one upload request. React's functional updates
    (`setImages(prev => ...)`) become functions from the old state to the
    new one. */
module Collage {

  import opened Basics
  import opened Strings
  import opened Lists

  datatype File = File(name: string, mimeType: string)

  /** `Date.now() + Math.random()`. */
  type LocalId = real

  /** An entry of the pending list; `imageId` is the server's id once uploaded. */
  datatype Pending = Pending(id: LocalId, file: File, password: string, uploaded: bool, imageId: string)

  /** A picked file together with the id drawn for it when it is added;
      clock and randomness are inputs here. */
  datatype Drawn = Drawn(file: File, id: LocalId)

  function Fresh(d: Drawn): Pending
  {
    Pending(d.id, d.file, "", false, "")
  }

  /** `processFiles`: one new entry per file, after the existing ones, each
      with no password, not uploaded and no server id. */
  function ProcessFiles(images: seq<Pending>, files: seq<Drawn>): (r: seq<Pending>)
    ensures |r| == |images| + |files|
    ensures r[..|images|] == images
    ensures forall k | 0 <= k < |files| ::
              && r[|images| + k].id == files[k].id && r[|images| + k].file == files[k].file
              && r[|images| + k].password == "" && !r[|images| + k].uploaded && r[|images| + k].imageId == ""
  {
    images + seq(|files|, k requires 0 <= k < |files| => Fresh(files[k]))
  }

  /** `file.type.startsWith('image/')`. */
  predicate IsImageFile(f: File)
  {
    StartsWith(f.mimeType, "image/")
  }

  /** The dropped files `handleDrop` keeps: those with an image MIME type. */
  function ImageFiles(dropped: seq<Drawn>): (files: seq<Drawn>)
    ensures |files| <= |dropped|
    ensures IsSubsequence(files, dropped)
    ensures forall d :: multiset(files)[d] == if IsImageFile(d.file) then multiset(dropped)[d] else 0
    ensures forall d :: d in files <==> d in dropped && IsImageFile(d.file)
    ensures (forall d | d in dropped :: IsImageFile(d.file)) ==> files == dropped
  {
    FilterKeepsAll(dropped, (d: Drawn) => IsImageFile(d.file));
    Filter(dropped, (d: Drawn) => IsImageFile(d.file))
  }

  /** `handleDrop`: keeps the image files and adds them, or does nothing
      when none is left. */
  function HandleDrop(images: seq<Pending>, dropped: seq<Drawn>): (r: seq<Pending>)
    ensures |images| <= |r| <= |images| + |dropped|
    ensures r[..|images|] == images
    ensures |r| == |images| + |ImageFiles(dropped)|
    ensures forall k | 0 <= k < |ImageFiles(dropped)| :: r[|images| + k] == Fresh(ImageFiles(dropped)[k])
    ensures forall k | |images| <= k < |r| :: IsImageFile(r[k].file) && Drawn(r[k].file, r[k].id) in dropped
    ensures forall k | |images| <= k < |r| :: r[k].password == "" && !r[k].uploaded && r[k].imageId == ""
    ensures forall d | d in dropped && IsImageFile(d.file) :: Fresh(d) in r[|images|..]
    ensures (forall d | d in dropped :: !IsImageFile(d.file)) ==> r == images
    ensures (forall d | d in dropped :: IsImageFile(d.file)) ==> r == ProcessFiles(images, dropped)
  {
    var files := ImageFiles(dropped);
    if |files| > 0 then
      DropAppendsImageFiles(images, dropped);
      ProcessFiles(images, files)
    else
      images
  }

  /** The entries `ProcessFiles` appends are the fresh entries of the
      files, one each, in order. */
  lemma AppendedAreFresh(images: seq<Pending>, files: seq<Drawn>)
    ensures forall k | |images| <= k < |images| + |files| ::
              ProcessFiles(images, files)[k] == Fresh(files[k - |images|])
    ensures forall d | d in files :: Fresh(d) in ProcessFiles(images, files)[|images|..]
  {
    var r := ProcessFiles(images, files);
    forall d | d in files ensures Fresh(d) in r[|images|..] {
      var j :| 0 <= j < |files| && files[j] == d;
      assert r[|images|..][j] == Fresh(d);
    }
  }

  /** What appending the image files of a drop adds: one fresh entry per
      kept file, in drop order, and nothing else. */
  lemma DropAppendsImageFiles(images: seq<Pending>, dropped: seq<Drawn>)
    ensures var r := ProcessFiles(images, ImageFiles(dropped));
            && |r| == |images| + |ImageFiles(dropped)|
            && (forall k | 0 <= k < |ImageFiles(dropped)| :: r[|images| + k] == Fresh(ImageFiles(dropped)[k]))
            && (forall k | |images| <= k < |r| ::
                  && IsImageFile(r[k].file) && Drawn(r[k].file, r[k].id) in dropped
                  && r[k].password == "" && !r[k].uploaded && r[k].imageId == "")
            && (forall d | d in dropped && IsImageFile(d.file) :: Fresh(d) in r[|images|..])
  {
    var files := ImageFiles(dropped);
    var r := ProcessFiles(images, files);
    AppendedAreFresh(images, files);
    forall k | |images| <= k < |r|
      ensures IsImageFile(r[k].file) && Drawn(r[k].file, r[k].id) in dropped
    {
      var d := files[k - |images|];
      assert d in files;
      assert Drawn(r[k].file, r[k].id) == d;
    }
  }

  /** `updatePassword(id, value)`: the entries with that id get the new
      password; length, order and every other field stay as they were. */
  function UpdatePassword(images: seq<Pending>, id: LocalId, value: string): (r: seq<Pending>)
    ensures |r| == |images|
    ensures forall i | 0 <= i < |r| ::
              && r[i].id == images[i].id && r[i].file == images[i].file
              && r[i].uploaded == images[i].uploaded && r[i].imageId == images[i].imageId
              && r[i].password == (if images[i].id == id then value else images[i].password)
  {
    seq(|images|, i requires 0 <= i < |images| =>
      if images[i].id == id then images[i].(password := value) else images[i])
  }

  /** Setting the same password twice is the same as setting it once, and
      the last of two edits wins. */
  lemma UpdatePasswordLastWins(images: seq<Pending>, id: LocalId, v1: string, v2: string)
    ensures UpdatePassword(UpdatePassword(images, id, v1), id, v2) == UpdatePassword(images, id, v2)
  {
  }

  // ---------------------------------------------------------------------------
  // uploadToServer

  /** The parts of the component state that `uploadToServer` touches. */
  datatype Ui = Ui(images: seq<Pending>, uploading: set<LocalId>, message: string,
                   passwordModal: bool, selected: Option<Pending>)

  /** How the upload request ended: `res.ok` with the server's id, a
      non-ok answer with its optional message, or a thrown error. */
  datatype Outcome = Accepted(imageId: string) | Rejected(message: Option<string>) | Failed

  const PleaseLogin := "Please login first."

  /** The synchronous part before `fetch`: refuse without a token,
      otherwise mark the entry as uploading. */
  function BeginUpload(ui: Ui, token: Option<string>, img: Pending): (r: Ui)
    ensures !Truthy(token) ==> r == ui.(message := PleaseLogin)
    ensures Truthy(token) ==> r == ui.(uploading := ui.uploading + {img.id})
  {
    if !Truthy(token) then ui.(message := PleaseLogin)
    else ui.(uploading := ui.uploading + {img.id})
  }

  /** `i.id === img.id ? { ...i, uploaded: true, imageId } : i` over the list. */
  function MarkUploaded(images: seq<Pending>, id: LocalId, imageId: string): (r: seq<Pending>)
    ensures |r| == |images|
    ensures forall i | 0 <= i < |r| ::
              && r[i].id == images[i].id && r[i].file == images[i].file && r[i].password == images[i].password
              && (images[i].id == id ==> r[i].uploaded && r[i].imageId == imageId)
              && (images[i].id != id ==> r[i] == images[i])
  {
    seq(|images|, i requires 0 <= i < |images| =>
      if images[i].id == id then images[i].(uploaded := true, imageId := imageId) else images[i])
  }

  /** What happens once the request settles; the `finally` always takes the
      entry out of the uploading set. */
  function FinishUpload(ui: Ui, img: Pending, outcome: Outcome): (r: Ui)
    ensures r.uploading == ui.uploading - {img.id}
    ensures !outcome.Accepted? ==> r.images == ui.images && r.passwordModal == ui.passwordModal && r.selected == ui.selected
    ensures outcome.Accepted? ==> r.images == MarkUploaded(ui.images, img.id, outcome.imageId)
    ensures outcome.Accepted? ==> (r.passwordModal <==> ui.passwordModal || img.password == "")
    ensures outcome.Accepted? && img.password == "" ==> r.selected == Some(img.(imageId := outcome.imageId))
    ensures outcome.Accepted? && img.password == "" ==> r.message == ui.message
    ensures outcome.Accepted? && img.password != "" ==>
              r.message == "Image uploaded with password!" && r.selected == ui.selected
    ensures outcome.Rejected? ==> r.message == (if Truthy(outcome.message) then outcome.message.value else "Upload failed")
    ensures outcome.Failed? ==> r.message == "Upload failed. Try again."
  {
    var settled :=
      match outcome
      case Accepted(imageId) =>
        var marked := ui.(images := MarkUploaded(ui.images, img.id, imageId));
        if img.password != "" then marked.(message := "Image uploaded with password!")
        else marked.(selected := Some(img.(imageId := imageId)), passwordModal := true)
      case Rejected(message) =>
        ui.(message := if Truthy(message) then message.value else "Upload failed")
      case Failed =>
        ui.(message := "Upload failed. Try again.");
    settled.(uploading := settled.uploading - {img.id})
  }

  /** The whole `uploadToServer` run, for a request that ends with `outcome`. */
  function UploadToServer(ui: Ui, token: Option<string>, img: Pending, outcome: Outcome): (r: Ui)
  {
    if !Truthy(token) then BeginUpload(ui, token, img)
    else FinishUpload(BeginUpload(ui, token, img), img, outcome)
  }

  /** Without a token only the message changes: no entry is marked
      uploading and the list is untouched. */
  lemma NoTokenTouchesOnlyMessage(ui: Ui, token: Option<string>, img: Pending, outcome: Outcome)
    requires !Truthy(token)
    ensures UploadToServer(ui, token, img, outcome) == ui.(message := PleaseLogin)
  {
  }

  /** The entry is in the uploading set while the request is in flight and
      out of it afterwards, whatever the outcome. */
  lemma UploadingOnlyDuringRequest(ui: Ui, token: Option<string>, img: Pending, outcome: Outcome)
    requires Truthy(token)
    ensures img.id in BeginUpload(ui, token, img).uploading
    ensures UploadToServer(ui, token, img, outcome).uploading == ui.uploading - {img.id}
  {
  }

  /** On success only the matching entries change, and the post-upload
      password prompt opens exactly when the entry had no password. */
  lemma SuccessMarksOnlyTheEntry(ui: Ui, token: Option<string>, img: Pending, imageId: string)
    requires Truthy(token) && !ui.passwordModal
    ensures var r := UploadToServer(ui, token, img, Accepted(imageId));
            && |r.images| == |ui.images|
            && (forall i | 0 <= i < |r.images| && ui.images[i].id != img.id :: r.images[i] == ui.images[i])
            && (forall i | 0 <= i < |r.images| && ui.images[i].id == img.id ::
                  r.images[i].uploaded && r.images[i].imageId == imageId)
            && (r.passwordModal <==> img.password == "")
  {
  }
}

=== FILE: dashboard.dfy ===
/** The list logic of `src/components/Dashboard.jsx` over the images the
    list route returned: search and filter, the protected/public tiles, the
    recent strip and the local removal after a delete. */
module Dashboard {

  import opened Strings
  import opened ObjectIds
  import opened ImageModel
  import opened Lists

  // ---------------------------------------------------------------------------
  // filteredImages

  /** `img.filename.toLowerCase().includes(term) || img._id.toLowerCase().includes(term)`
      with the term lower-cased. */
  predicate MatchesSearch(img: Entry, searchTerm: string)
  {
    Includes(Lower(img.image.filename), Lower(searchTerm)) || Includes(Lower(img.id), Lower(searchTerm))
  }

  /** "all" keeps everything, "protected" and "public" split on the
      password; any other value keeps nothing. */
  predicate MatchesFilter(img: Entry, filterType: string)
  {
    || filterType == "all"
    || (filterType == "protected" && IsProtected(img.image))
    || (filterType == "public" && !IsProtected(img.image))
  }

  function FilteredImages(images: seq<Entry>, searchTerm: string, filterType: string): (r: seq<Entry>)
    ensures IsSubsequence(r, images)
    ensures forall img :: img in r <==>
              && img in images
              && (Occurs(Lower(searchTerm), Lower(img.image.filename)) || Occurs(Lower(searchTerm), Lower(img.id)))
              && MatchesFilter(img, filterType)
  {
    Filter(images, img => MatchesSearch(img, searchTerm) && MatchesFilter(img, filterType))
  }

  /** With filter "all" and an empty search every image is shown, in order. */
  lemma ShowAllByDefault(images: seq<Entry>)
    ensures FilteredImages(images, "", "all") == images
  {
    forall img | img in images ensures MatchesSearch(img, "") && MatchesFilter(img, "all") {
      assert Lower("") == "";
      EmptyOccursEverywhere(Lower(img.image.filename));
    }
    FilterKeepsAll(images, img => MatchesSearch(img, "") && MatchesFilter(img, "all"));
  }

  /** A filter value other than the three known ones hides everything. */
  lemma UnknownFilterHidesAll(images: seq<Entry>, searchTerm: string, filterType: string)
    requires filterType != "all" && filterType != "protected" && filterType != "public"
    ensures FilteredImages(images, searchTerm, filterType) == []
  {
  }

  /** For any search, the protected and the public view split the "all" view. */
  lemma {:induction false} ProtectedAndPublicSplitAll(images: seq<Entry>, searchTerm: string)
    ensures |FilteredImages(images, searchTerm, "protected")| + |FilteredImages(images, searchTerm, "public")|
            == |FilteredImages(images, searchTerm, "all")|
  {
    if images != [] {
      ProtectedAndPublicSplitAll(images[1..], searchTerm);
    }
  }

  // ---------------------------------------------------------------------------
  // Statistics tiles

  function ProtectedCount(images: seq<Entry>): nat
  {
    |Filter(images, (img: Entry) => IsProtected(img.image))|
  }

  function PublicCount(images: seq<Entry>): nat
  {
    |Filter(images, (img: Entry) => !IsProtected(img.image))|
  }

  /** The "Protected" and "Public" tiles always add up to "Total". */
  lemma {:induction false} CountsAddUp(images: seq<Entry>)
    ensures ProtectedCount(images) + PublicCount(images) == |images|
  {
    if images != [] {
      CountsAddUp(images[1..]);
    }
  }

  // ---------------------------------------------------------------------------
  // Recent strip and local delete

  /** `images.slice(0, 4)`. */
  function Recent(images: seq<Entry>): (r: seq<Entry>)
    ensures |r| <= 4 && r <= images
    ensures |images| >= 4 ==> |r| == 4
    ensures |images| < 4 ==> r == images
  {
    if |images| <= 4 then images else images[..4]
  }

  /** After `DELETE /delete/:id` the list drops the entries with that id
      when the server said yes, and stays as it was otherwise. */
  function AfterDelete(images: seq<Entry>, imageId: string, ok: bool): (r: seq<Entry>)
    ensures !ok ==> r == images
    ensures ok ==> IsSubsequence(r, images)
    ensures ok ==> forall img :: img in r <==> img in images && img.id != imageId
  {
    if ok then Filter(images, (img: Entry) => img.id != imageId) else images
  }

  /** Removing an id that is not listed changes nothing. */
  lemma DeleteOfUnlistedIdIsNoop(images: seq<Entry>, imageId: string)
    requires forall img | img in images :: img.id != imageId
    ensures AfterDelete(images, imageId, true) == images
  {
    FilterKeepsAll(images, (img: Entry) => img.id != imageId);
  }
}

=== FILE: end_to_end.dfy ===
/** Properties that cross component boundaries: a login token opening the
    image routes, the client's post-upload prompt against what the server
    stored, and the access scenarios of two accounts sharing one server. */
module EndToEnd {

  import opened Basics
  import opened Strings
  import opened ObjectIds
  import opened Bcrypt
  import opened Jwt
  import opened BearerAuth
  import opened Accounts
  import opened ImageModel
  import opened ImageController
  import opened ImageRoutes
  import Collage

  /** A token issued by a successful login, sent back as
      "Bearer <token>" within the hour, passes the gate of the image routes
      and identifies the account that logged in. */
  lemma LoginTokenOpensImageRoutes(users: Users, email: string, password: string, issued: int,
                                   keys: Keyring, token: string, now: int)
    requires Login(users, email, password, issued).LoggedIn?
    requires token != "" && ' ' !in token
    requires token in keys && keys[token] == Login(users, email, password, issued).token
    requires now < issued + ExpiresIn
    ensures RequireBearer(Some(Scheme + token), keys, now).Next?
    ensures RequireBearer(Some(Scheme + token), keys, now).user.id == users[email].id
  {
    var h := Scheme + token;
    assert StartsWith(h, Scheme) by { assert h[..|Scheme|] == Scheme; }
    assert h[|Scheme|..] == token;
    SplitJoin([token]);
  }

  /** The same token presented an hour or more after login is refused. */
  lemma LoginTokenExpires(users: Users, email: string, password: string, issued: int,
                          keys: Keyring, token: string, now: int)
    requires Login(users, email, password, issued).LoggedIn?
    requires token != "" && ' ' !in token
    requires token in keys && keys[token] == Login(users, email, password, issued).token
    requires now >= issued + ExpiresIn
    ensures RequireBearer(Some(Scheme + token), keys, now) == Reject(InvalidToken)
  {
    var h := Scheme + token;
    assert StartsWith(h, Scheme) by { assert h[..|Scheme|] == Scheme; }
    assert h[|Scheme|..] == token;
    SplitJoin([token]);
  }

  /** The client sends `img.password || ''` with the file. The server then
      stores a protected record exactly when the entry had a password, and
      the client opens its "set a password now" prompt exactly when the
      server stored a public one. */
  lemma PromptOpensExactlyForPublicUploads(store: Store, userId: string, file: UploadedFile, salt: Salt,
                                           newId: ObjectId, now: int, ui: Collage.Ui, img: Collage.Pending)
    requires file.filename != "" && IsObjectIdText(userId) && newId !in store
    requires !ui.passwordModal
    ensures var s := UploadImage(store, userId, Some(file), Some(img.password), salt, newId, now);
            && s.reply == Uploaded(newId)
            && (IsProtected(s.store[newId]) <==> img.password != "")
            && (Collage.FinishUpload(ui, img, Collage.Accepted(newId)).passwordModal <==> !IsProtected(s.store[newId]))
  {
  }

  /** Account A uploads with "secret123". A shared-link viewer with a wrong
      password is refused, with the right one gets the bytes; a second
      account B cannot fetch it on the dashboard path, and the public path
      refuses everybody. */
  lemma ProtectedUploadScenario(store: Store, a: ObjectId, b: ObjectId, file: UploadedFile, salt: Salt,
                                newId: ObjectId, now: int, files: set<string>)
    requires a != b
    requires file.filename != "" && file.filename in files && newId !in store
    ensures var s := UploadImage(store, a, Some(file), Some("secret123"), salt, newId, now);
            && s.reply == Uploaded(newId)
            && IsProtected(s.store[newId])
            && ViewImage(s.store, newId, Some("wrong"), files) == Unauthorized("Incorrect password")
            && ViewImage(s.store, newId, Some("secret123"), files) == Stream(file.filename)
            && ViewImage(s.store, newId, None, files) == Unauthorized("Password required")
            && ServeImage(s.store, b, newId, files) == Forbidden("Access denied")
            && ServeImage(s.store, a, newId, files) == Stream(file.filename)
            && ServePublicImage(s.store, newId, files) == Forbidden("Protected image")
  {
    CastCanonical(a);
    CastCanonical(newId);
  }

  /** Account A uploads without a password: the public path serves it to
      anyone. */
  lemma PublicUploadScenario(store: Store, a: ObjectId, file: UploadedFile, password: Option<string>, salt: Salt,
                             newId: ObjectId, now: int, files: set<string>)
    requires !Truthy(password)
    requires file.filename != "" && file.filename in files && newId !in store
    ensures var s := UploadImage(store, a, Some(file), password, salt, newId, now);
            && s.reply == Uploaded(newId)
            && ServePublicImage(s.store, newId, files) == Stream(file.filename)
  {
    CastCanonical(a);
    CastCanonical(newId);
  }

  /** Account B trying to delete A's image is refused, and A can still
      fetch it afterwards. */
  lemma ForeignDeleteScenario(store: Store, a: ObjectId, b: ObjectId, id: ObjectId, files: set<string>)
    requires a != b
    requires id in store && store[id].owner == a && store[id].filename in files
    ensures var s := DeleteImage(store, b, id);
            && s.reply == Forbidden("Not authorized to delete this image")
            && s.store == store
            && ServeImage(s.store, a, id, files) == Stream(store[id].filename)
  {
    CastCanonical(id);
  }
}

=== FILE: image_controller.dfy ===
/** `backend/controllers/imageController.js`: upload, and the three
    byte-serving handlers. Each handler is a pure function of the store, the
    caller and the request; streaming is represented by the `Stream` reply,
    and the disk by the set of filenames present under `uploads/`. */
module ImageController {

  import opened Basics
  import opened ObjectIds
  import opened Bcrypt
  import opened ImageModel

  /** The answers the image routes give. `ServerError` is the 500
      "Server error" of every handler's `catch`. */
  datatype Reply =
    | Uploaded(id: ObjectId)                              // { message: 'Image uploaded', id }
    | Images(entries: seq<Entry>)                         // the list route's array
    | Protection(requiresPassword: bool, message: string) // the check route
    | Done(message: string)                               // 200 { message }
    | Validity(valid: bool)                               // { valid }
    | Stream(filename: string)                            // the bytes of uploads/<filename>
    | BadRequest(message: string)                         // 400
    | Unauthorized(message: string)                       // 401
    | Forbidden(message: string)                          // 403
    | NotFound(message: string)                           // 404
    | ServerError                                         // 500

  /** A reply and the store after the request. */
  datatype Step = Step(reply: Reply, store: Store)

  /** Multer's `req.file`; only its stored name matters here. */
  datatype UploadedFile = UploadedFile(filename: string)

  const ImageNotFound := "Image not found"

  // ---------------------------------------------------------------------------
  // uploadImage

  /** `uploadImage` for the authenticated account `userId`. The new record's
      id `newId` is the one Mongo generates, the salt is bcrypt's random
      salt and `now` the clock; saving under an id already in use fails as
      a duplicate key. */
  function UploadImage(store: Store, userId: string, file: Option<UploadedFile>, password: Option<string>,
                       salt: Salt, newId: ObjectId, now: int): (s: Step)
    ensures file.None? ==> s == Step(BadRequest("No file uploaded"), store)
    ensures s.reply.Uploaded? <==> file.Some? && file.value.filename != "" && IsObjectIdText(userId) && newId !in store
    ensures !s.reply.Uploaded? ==> s.store == store
    ensures file.Some? && !s.reply.Uploaded? ==> s.reply == ServerError
    ensures s.reply.Uploaded? ==>
              && s.reply.id == newId
              && s.store.Keys == store.Keys + {newId}
              && (forall id | id in store :: s.store[id] == store[id])
              && s.store[newId].owner == Cast(userId)
              && s.store[newId].filename == file.value.filename
              && s.store[newId].createdAt == now
              && (IsProtected(s.store[newId]) <==> Truthy(password))
              && (IsProtected(s.store[newId]) ==> Matches(password.value, s.store[newId].password.value))
  {
    if file.None? then Step(BadRequest("No file uploaded"), store)
    else
      var hashed := HashIfGiven(password, salt);
      match NewImage(file.value.filename, userId, now, hashed)
      case None => Step(ServerError, store)
      case Some(image) =>
        if newId in store then Step(ServerError, store)
        else Step(Uploaded(newId), store[newId := image])
  }

  /** Uploading keeps every record well formed. */
  lemma UploadPreservesInvariant(store: Store, userId: string, file: Option<UploadedFile>, password: Option<string>,
                                 salt: Salt, newId: ObjectId, now: int)
    requires Invariant(store)
    ensures Invariant(UploadImage(store, userId, file, password, salt, newId, now).store)
  {
  }

  // ---------------------------------------------------------------------------
  // The byte-serving paths

  /** The three routes that stream an image, with what each carries:
      `GET /serve/:id` behind the token gate carries the caller's id,
      `POST /view/:id` carries an optional password and no token,
      `GET /public/:id` carries nothing. */
  datatype AccessPath =
    | OwnerSession(userId: string)
    | PasswordGate(password: Option<string>)
    | PublicOnly

  /** Reference statement of who may receive the bytes of an image. */
  predicate MayStream(path: AccessPath, image: ImageRecord)
  {
    match path
    case OwnerSession(userId) => image.owner == userId || !IsProtected(image)
    case PasswordGate(password) =>
      !IsProtected(image) || (Truthy(password) && Matches(password.value, image.password.value))
    case PublicOnly => !IsProtected(image)
  }

  /** The refusal each handler gives, in its own words, before it looks at
      the disk; `None` lets the request through. */
  function Denial(path: AccessPath, image: ImageRecord): (d: Option<Reply>)
    ensures d.None? <==> MayStream(path, image)
  {
    match path
    case OwnerSession(userId) =>
      if image.owner != userId && IsProtected(image) then Some(Forbidden("Access denied")) else None
    case PasswordGate(password) =>
      if !IsProtected(image) then None
      else if !Truthy(password) then Some(Unauthorized("Password required"))
      else if !Matches(password.value, image.password.value) then Some(Unauthorized("Incorrect password"))
      else None
    case PublicOnly =>
      if IsProtected(image) then Some(Forbidden("Protected image")) else None
  }

  function MissingFile(path: AccessPath): string
  {
    if path.PublicOnly? then "File not found" else "Image file not found"
  }

  /** The common shape of the three handlers: look the record up, decide,
      then check the file and stream it. */
  function Serve(store: Store, id: string, path: AccessPath, files: set<string>): (r: Reply)
    ensures Find(store, id).Malformed? ==> r == ServerError
    ensures Find(store, id).Missing? ==> r == NotFound(ImageNotFound)
    ensures r.Stream? <==> Find(store, id).Found? && MayStream(path, Find(store, id).image)
                           && Find(store, id).image.filename in files
    ensures r.Stream? ==> r.filename == Find(store, id).image.filename
    ensures Find(store, id).Found? && Denial(path, Find(store, id).image).Some? ==>
              r == Denial(path, Find(store, id).image).value
    ensures Find(store, id).Found? && MayStream(path, Find(store, id).image)
            && Find(store, id).image.filename !in files ==>
              r == NotFound(MissingFile(path))
  {
    match Find(store, id)
    case Malformed => ServerError
    case Missing => NotFound(ImageNotFound)
    case Found(_, image) =>
      match Denial(path, image)
      case Some(refusal) => refusal
      case None =>
        if image.filename in files then Stream(image.filename) else NotFound(MissingFile(path))
  }

  /** `serveImage` (dashboard display): identity only, no password. */
  function ServeImage(store: Store, userId: string, id: string, files: set<string>): (r: Reply)
    ensures Find(store, id).Missing? ==> r == NotFound(ImageNotFound)
    ensures Find(store, id).Found? ==>
              (r == Forbidden("Access denied") <==>
                 Find(store, id).image.owner != userId && IsProtected(Find(store, id).image))
    ensures Find(store, id).Found? && Find(store, id).image.owner == userId ==> !r.Forbidden?
    ensures r.Stream? ==> Find(store, id).Found?
                          && (Find(store, id).image.owner == userId || !IsProtected(Find(store, id).image))
    ensures Find(store, id).Found? && (Find(store, id).image.owner == userId || !IsProtected(Find(store, id).image))
            && Find(store, id).image.filename !in files ==>
              r == NotFound("Image file not found")
  {
    Serve(store, id, OwnerSession(userId), files)
  }

  /** `viewImage` (shared links): no token; a protected image needs the
      right password in the body. */
  function ViewImage(store: Store, id: string, password: Option<string>, files: set<string>): (r: Reply)
    ensures Find(store, id).Missing? ==> r == NotFound(ImageNotFound)
    ensures Find(store, id).Found? && !IsProtected(Find(store, id).image) ==>
              r == (if Find(store, id).image.filename in files then Stream(Find(store, id).image.filename)
                    else NotFound("Image file not found"))
    ensures Find(store, id).Found? && IsProtected(Find(store, id).image) && !Truthy(password) ==>
              r == Unauthorized("Password required")
    ensures Find(store, id).Found? && IsProtected(Find(store, id).image) && Truthy(password)
              && !Matches(password.value, Find(store, id).image.password.value) ==>
              r == Unauthorized("Incorrect password")
    ensures Find(store, id).Found? && IsProtected(Find(store, id).image) && Truthy(password)
            && Matches(password.value, Find(store, id).image.password.value) ==>
              r == (if Find(store, id).image.filename in files then Stream(Find(store, id).image.filename)
                    else NotFound("Image file not found"))
  {
    Serve(store, id, PasswordGate(password), files)
  }

  /** `servePublicImage` (thumbnails): never streams a protected image. */
  function ServePublicImage(store: Store, id: string, files: set<string>): (r: Reply)
    ensures Find(store, id).Missing? ==> r == NotFound(ImageNotFound)
    ensures Find(store, id).Found? && IsProtected(Find(store, id).image) ==> r == Forbidden("Protected image")
    ensures r.Stream? ==> Find(store, id).Found? && !IsProtected(Find(store, id).image)
    ensures Find(store, id).Found? && !IsProtected(Find(store, id).image) ==>
              r == (if Find(store, id).image.filename in files then Stream(Find(store, id).image.filename)
                    else NotFound("File not found"))
  {
    Serve(store, id, PublicOnly, files)
  }

  /** The decision comes before the disk is consulted: when a path may not
      stream an image, the answer is the same whatever files exist, and it
      is never a stream. */
  lemma DecisionPrecedesFileCheck(store: Store, id: string, path: AccessPath, files1: set<string>, files2: set<string>)
    requires Find(store, id).Found? && !MayStream(path, Find(store, id).image)
    ensures Serve(store, id, path, files1) == Serve(store, id, path, files2)
    ensures !Serve(store, id, path, files1).Stream?
  {
  }

  /** The missing-file 404 can only come after the decision let the
      request through. */
  lemma FileCheckOnlyAfterAllow(store: Store, id: string, path: AccessPath, files: set<string>)
    requires Find(store, id).Found?
    requires Serve(store, id, path, files) == NotFound(MissingFile(path))
    ensures MayStream(path, Find(store, id).image)
    ensures Find(store, id).image.filename !in files
  {
  }

  /** The public path is the most restrictive: whatever it streams, the
      other two paths stream too, for every caller and every password. */
  lemma PublicIsStrictest(store: Store, id: string, userId: string, password: Option<string>, files: set<string>)
    requires ServePublicImage(store, id, files).Stream?
    ensures ServeImage(store, userId, id, files) == ServePublicImage(store, id, files)
    ensures ViewImage(store, id, password, files) == ServePublicImage(store, id, files)
  {
  }
}

=== FILE: image_model.dfy ===
/** The Mongoose `Image` model: one record per uploaded image, kept in a
    store keyed by the record's ObjectId. */
module ImageModel {

  import opened Basics
  import opened ObjectIds
  import opened Bcrypt

  /** `password` is the bcrypt hash, or `null` for a public image;
      `owner` is the uploading account; `createdAt` is the upload time. */
  datatype ImageRecord = ImageRecord(filename: string, password: Option<Hash>, owner: ObjectId, createdAt: int)

  type Store = map<ObjectId, ImageRecord>

  /** A record together with its `_id`, as the list route returns it. */
  datatype Entry = Entry(id: ObjectId, image: ImageRecord)

  /** `!!image.password`. */
  predicate IsProtected(image: ImageRecord)
  {
    image.password.Some?
  }

  /** `new Image({ filename, password, owner })` checked by the schema on
      `save()`: `filename` is a required String (so not empty), `owner` is a
      required ObjectId (so it must cast), `password` defaults to `null` and
      `createdAt` to the current time. `None` is a validation failure. */
  function NewImage(filename: string, owner: string, now: int, password: Option<Hash> := None): (r: Option<ImageRecord>)
    ensures r.Some? <==> filename != "" && IsObjectIdText(owner)
    ensures r.Some? ==> r.value.filename == filename && r.value.createdAt == now
    ensures r.Some? ==> r.value.owner == Cast(owner) && r.value.password == password
  {
    if filename == "" || !IsObjectIdText(owner) then None
    else Some(ImageRecord(filename, password, Cast(owner), now))
  }

  /** A record created without a password is public. */
  lemma PasswordDefaultsToNull(filename: string, owner: string, now: int)
    requires filename != "" && IsObjectIdText(owner)
    ensures NewImage(filename, owner, now).Some?
    ensures !IsProtected(NewImage(filename, owner, now).value)
  {
  }

  /** Outcome of `Image.findById(id)`: a text that is not an ObjectId makes
      the cast throw before the store is consulted. */
  datatype Lookup = Found(id: ObjectId, image: ImageRecord) | Missing | Malformed

  function Find(store: Store, id: string): (l: Lookup)
    ensures l.Malformed? <==> !IsObjectIdText(id)
    ensures l.Found? <==> IsObjectIdText(id) && Cast(id) in store
    ensures l.Found? ==> l.id == Cast(id) && l.image == store[l.id]
  {
    if !IsObjectIdText(id) then Malformed
    else if Cast(id) in store then Found(Cast(id), store[Cast(id)])
    else Missing
  }

  /** What every record the program writes satisfies: a non-empty filename,
      and, when protected, a hash made with the program's cost factor that
      the empty password does not open (no writer ever hashes ""). */
  predicate WellFormed(image: ImageRecord)
  {
    && image.filename != ""
    && (IsProtected(image) ==> image.password.value.rounds == Rounds && !Matches("", image.password.value))
  }

  predicate Invariant(store: Store)
  {
    forall id | id in store :: WellFormed(store[id])
  }

  /** The hash the two writers store for an optional request password:
      `password ? await bcrypt.hash(password, 10) : null`. */
  function HashIfGiven(password: Option<string>, salt: Salt): (h: Option<Hash>)
    ensures h.Some? <==> Truthy(password)
    ensures h.Some? ==> Matches(password.value, h.value) && !Matches("", h.value) && h.value.rounds == Rounds
  {
    if Truthy(password) then Some(HashOf(password.value, salt)) else None
  }
}

=== FILE: image_routes.dfy ===
/** `backend/routes/imageRoutes.js`: the handlers written inline in the
    router (list, check, set password, verify password, delete), and the
    router itself — which routes sit behind the bearer-token middleware. */
module ImageRoutes {

  import opened Basics
  import opened ObjectIds
  import opened Bcrypt
  import opened Jwt
  import opened BearerAuth
  import opened ImageModel
  import opened ImageController

  // ---------------------------------------------------------------------------
  // GET /  — the caller's images, newest first

  predicate NewestFirst(entries: seq<Entry>)
  {
    forall i, j | 0 <= i < j < |entries| :: entries[i].image.createdAt >= entries[j].image.createdAt
  }

  predicate DistinctIds(entries: seq<Entry>)
  {
    forall i, j | 0 <= i < j < |entries| :: entries[i].id != entries[j].id
  }

  function IdsOf(entries: seq<Entry>): set<ObjectId>
  {
    set i | 0 <= i < |entries| :: entries[i].id
  }

  /** The ids of the records `owner` owns among the keys `keys`. */
  function OwnedIn(store: Store, keys: set<ObjectId>, owner: ObjectId): set<ObjectId>
  {
    set id | id in keys && id in store && store[id].owner == owner
  }

  /** `Image.find({ owner }).sort({ createdAt: -1 })`: every record of the
      owner exactly once, as stored, and nothing else, newest first. The
      order among equal timestamps is left open, as MongoDB leaves it. */
  predicate IsOwnListing(store: Store, owner: ObjectId, entries: seq<Entry>)
  {
    && NewestFirst(entries)
    && DistinctIds(entries)
    && (forall i | 0 <= i < |entries| ::
          entries[i].id in store && store[entries[i].id] == entries[i].image && entries[i].image.owner == owner)
    && IdsOf(entries) == OwnedIn(store, store.Keys, owner)
  }

  /** Where a new entry goes in a newest-first list: after every strictly
      newer entry, before the first one that is not newer. */
  function Position(entries: seq<Entry>, e: Entry): (k: nat)
    ensures k <= |entries|
    ensures forall i | 0 <= i < k :: entries[i].image.createdAt > e.image.createdAt
    ensures k < |entries| ==> entries[k].image.createdAt <= e.image.createdAt
  {
    if entries == [] || e.image.createdAt >= entries[0].image.createdAt then 0
    else 1 + Position(entries[1..], e)
  }

  /** Inserting at `Position` keeps the list newest first. */
  lemma InsertKeepsOrder(entries: seq<Entry>, e: Entry, k: nat)
    requires NewestFirst(entries)
    requires k == Position(entries, e)
    ensures NewestFirst(entries[..k] + [e] + entries[k..])
  {
    var r := entries[..k] + [e] + entries[k..];
    forall i | 0 <= i < |r| ensures r[i] == (if i < k then entries[i] else if i == k then e else entries[i - 1]) {
    }
    forall i | k <= i < |entries| ensures entries[i].image.createdAt <= e.image.createdAt {
      assert entries[k].image.createdAt >= entries[i].image.createdAt;
    }
  }

  /** Builds the listing by visiting the store's ids in any order and
      inserting each owned record at its place in time. */
  method ListOwn(store: Store, owner: ObjectId) returns (entries: seq<Entry>)
    ensures IsOwnListing(store, owner, entries)
  {
    entries := [];
    var todo := store.Keys;
    while todo != {}
      invariant todo <= store.Keys
      invariant NewestFirst(entries)
      invariant DistinctIds(entries)
      invariant forall i | 0 <= i < |entries| ::
                  entries[i].id in store && store[entries[i].id] == entries[i].image && entries[i].image.owner == owner
      invariant IdsOf(entries) == OwnedIn(store, store.Keys - todo, owner)
      decreases todo
    {
      var id :| id in todo;
      todo := todo - {id};
      if store[id].owner == owner {
        var e := Entry(id, store[id]);
        var k := Position(entries, e);
        InsertKeepsOrder(entries, e, k);
        InsertKeepsIdsDistinct(entries, e, k, entries[..k] + [e] + entries[k..]);
        InsertAddsId(entries, e, k, entries[..k] + [e] + entries[k..]);
        entries := entries[..k] + [e] + entries[k..];
      } else {
        assert OwnedIn(store, store.Keys - todo, owner) == OwnedIn(store, store.Keys - (todo + {id}), owner);
      }
    }
  }

  /** Where each entry of `entries[..k] + [e] + entries[k..]` comes from. */
  lemma InsertAt(entries: seq<Entry>, e: Entry, k: nat, r: seq<Entry>)
    requires k <= |entries|
    requires r == entries[..k] + [e] + entries[k..]
    ensures |r| == |entries| + 1 && r[k] == e
    ensures forall i | 0 <= i < k :: r[i] == entries[i]
    ensures forall i | k <= i < |entries| :: r[i + 1] == entries[i]
  {
  }

  /** Inserting an entry with a fresh id keeps ids distinct. */
  lemma InsertKeepsIdsDistinct(entries: seq<Entry>, e: Entry, k: nat, r: seq<Entry>)
    requires k <= |entries|
    requires r == entries[..k] + [e] + entries[k..]
    requires DistinctIds(entries)
    requires e.id !in IdsOf(entries)
    ensures DistinctIds(r)
  {
    InsertAt(entries, e, k, r);
    forall i, j | 0 <= i < j < |r| ensures r[i].id != r[j].id {
      if i != k && j != k {
        var i' := if i < k then i else i - 1;
        var j' := if j < k then j else j - 1;
        assert r[i] == entries[i'] && r[j] == entries[j'] && i' < j';
      } else if i == k {
        assert r[j] == entries[j - 1];
        assert entries[j - 1].id in IdsOf(entries);
      } else {
        var i' := if i < k then i else i - 1;
        assert r[i] == entries[i'];
        assert entries[i'].id in IdsOf(entries);
      }
    }
  }

  /** Inserting an entry at position `k` adds exactly its id. */
  lemma InsertAddsId(entries: seq<Entry>, e: Entry, k: nat, r: seq<Entry>)
    requires k <= |entries|
    requires r == entries[..k] + [e] + entries[k..]
    ensures IdsOf(r) == IdsOf(entries) + {e.id}
    ensures forall i | 0 <= i < |r| :: r[i] == e || r[i] in entries
  {
    InsertAt(entries, e, k, r);
    forall i | 0 <= i < |r| ensures r[i] == e || (r[i] in entries && r[i].id in IdsOf(entries)) {
      if i != k {
        var j := if i < k then i else i - 1;
        assert r[i] == entries[j];
      }
    }
    forall x | x in IdsOf(entries) ensures x in IdsOf(r) {
      var j :| 0 <= j < |entries| && entries[j].id == x;
      var i := if j < k then j else j + 1;
      assert r[i].id == x;
    }
    assert r[k].id in IdsOf(r);
  }

  /** The list route for the authenticated `userId`. The id is cast for the
      query, so one that is not an ObjectId fails with 500. */
  method ListImages(store: Store, userId: string) returns (r: Reply)
    ensures !IsObjectIdText(userId) ==> r == ServerError
    ensures IsObjectIdText(userId) ==> r.Images? && IsOwnListing(store, Cast(userId), r.entries)
  {
    if !IsObjectIdText(userId) {
      return ServerError;
    }
    var entries := ListOwn(store, Cast(userId));
    return Images(entries);
  }

  // ---------------------------------------------------------------------------
  // GET /:id/check — no token

  function CheckProtection(store: Store, id: string): (r: Reply)
    ensures Find(store, id).Malformed? ==> r == ServerError
    ensures Find(store, id).Missing? ==> r == NotFound(ImageNotFound)
    ensures Find(store, id).Found? ==> r.Protection? && (r.requiresPassword <==> IsProtected(Find(store, id).image))
  {
    match Find(store, id)
    case Malformed => ServerError
    case Missing => NotFound(ImageNotFound)
    case Found(_, image) =>
      Protection(IsProtected(image), if IsProtected(image) then "Password required" else "No password required")
  }

  // ---------------------------------------------------------------------------
  // PUT /:id/password

  /** Sets the password of the caller's image, or clears it when the body
      carries none or an empty one. Existence is checked before ownership. */
  function SetPassword(store: Store, userId: string, id: string, password: Option<string>, salt: Salt): (s: Step)
    ensures Find(store, id).Malformed? ==> s == Step(ServerError, store)
    ensures Find(store, id).Missing? ==> s == Step(NotFound(ImageNotFound), store)
    ensures Find(store, id).Found? && Find(store, id).image.owner != userId ==>
              s == Step(Forbidden("Not authorized to modify this image"), store)
    ensures Find(store, id).Found? && Find(store, id).image.owner == userId ==>
              var key := Find(store, id).id;
              && s.reply == Done("Password updated successfully")
              && s.store.Keys == store.Keys
              && (forall other | other in store && other != key :: s.store[other] == store[other])
              && s.store[key].(password := store[key].password) == store[key]
              && (IsProtected(s.store[key]) <==> Truthy(password))
              && (IsProtected(s.store[key]) ==> Matches(password.value, s.store[key].password.value))
  {
    match Find(store, id)
    case Malformed => Step(ServerError, store)
    case Missing => Step(NotFound(ImageNotFound), store)
    case Found(key, image) =>
      if image.owner != userId then Step(Forbidden("Not authorized to modify this image"), store)
      else
        var hashed := HashIfGiven(password, salt);
        Step(Done("Password updated successfully"), store[key := image.(password := hashed)])
  }

  // ---------------------------------------------------------------------------
  // POST /:id/verify-password

  /** Checks a password against the caller's own image; a public image
      accepts anything, a protected one an exact non-empty match. */
  function VerifyPassword(store: Store, userId: string, id: string, password: Option<string>): (r: Reply)
    ensures Find(store, id).Malformed? ==> r == ServerError
    ensures Find(store, id).Missing? ==> r == NotFound(ImageNotFound)
    ensures Find(store, id).Found? && Find(store, id).image.owner != userId ==>
              r == Forbidden("Not authorized to access this image")
    ensures Find(store, id).Found? && Find(store, id).image.owner == userId ==>
              r.Validity? && (r.valid <==> MayStream(PasswordGate(password), Find(store, id).image))
  {
    match Find(store, id)
    case Malformed => ServerError
    case Missing => NotFound(ImageNotFound)
    case Found(_, image) =>
      if image.owner != userId then Forbidden("Not authorized to access this image")
      else if !IsProtected(image) then Validity(true)
      else if !Truthy(password) then Validity(false)
      else Validity(Matches(password.value, image.password.value))
  }

  // ---------------------------------------------------------------------------
  // DELETE /delete/:id

  function DeleteImage(store: Store, userId: string, id: string): (s: Step)
    ensures Find(store, id).Malformed? ==> s == Step(ServerError, store)
    ensures Find(store, id).Missing? ==> s == Step(NotFound(ImageNotFound), store)
    ensures Find(store, id).Found? && Find(store, id).image.owner != userId ==>
              s == Step(Forbidden("Not authorized to delete this image"), store)
    ensures Find(store, id).Found? && Find(store, id).image.owner == userId ==>
              && s.reply == Done("Image deleted successfully")
              && s.store.Keys == store.Keys - {Find(store, id).id}
              && (forall other | other in s.store :: s.store[other] == store[other])
  {
    match Find(store, id)
    case Malformed => Step(ServerError, store)
    case Missing => Step(NotFound(ImageNotFound), store)
    case Found(key, image) =>
      if image.owner != userId then Step(Forbidden("Not authorized to delete this image"), store)
      else Step(Done("Image deleted successfully"), store - {key})
  }

  // ---------------------------------------------------------------------------
  // Properties relating several routes

  /** Round trip: after the owner sets a non-empty password, verifying that
      password succeeds and verifying any other fails; and the anonymous
      view route agrees. */
  lemma SetThenVerify(store: Store, userId: string, id: string, p: string, q: string, salt: Salt, files: set<string>)
    requires Find(store, id).Found? && Find(store, id).image.owner == userId
    requires p != ""
    ensures var after := SetPassword(store, userId, id, Some(p), salt).store;
            && VerifyPassword(after, userId, id, Some(p)) == Validity(true)
            && VerifyPassword(after, userId, id, Some(q)) == Validity(q == p)
            && CheckProtection(after, id).Protection?
            && CheckProtection(after, id).requiresPassword
            && (q != p ==> ViewImage(after, id, Some(q), files) == Unauthorized(if q == "" then "Password required" else "Incorrect password"))
  {
  }

  /** Clearing the password makes every password, the old one included,
      valid again, and opens the public path. */
  lemma ClearThenVerify(store: Store, userId: string, id: string, password: Option<string>, q: Option<string>, salt: Salt, files: set<string>)
    requires Find(store, id).Found? && Find(store, id).image.owner == userId
    requires !Truthy(password)
    ensures var after := SetPassword(store, userId, id, password, salt).store;
            && VerifyPassword(after, userId, id, q) == Validity(true)
            && !ServePublicImage(after, id, files).Forbidden?
  {
  }

  /** Ownership is the only thing that separates two authenticated
      accounts on the mutating routes: a second account is refused and the
      store stays as it was. */
  lemma NonOwnerChangesNothing(store: Store, owner: string, other: string, id: string, password: Option<string>, salt: Salt)
    requires Find(store, id).Found? && Find(store, id).image.owner == owner && other != owner
    ensures SetPassword(store, other, id, password, salt).store == store
    ensures DeleteImage(store, other, id).store == store
    ensures DeleteImage(store, other, id).reply.Forbidden?
    ensures VerifyPassword(store, other, id, password).Forbidden?
  {
  }

  /** The writers keep the store well formed. */
  lemma WritersPreserveInvariant(store: Store, userId: string, id: string, password: Option<string>, salt: Salt)
    requires Invariant(store)
    ensures Invariant(SetPassword(store, userId, id, password, salt).store)
    ensures Invariant(DeleteImage(store, userId, id).store)
  {
  }

  /** On a well-formed store the routes' explicit "empty password" guard
      never changes an answer: accepting a password is the same as plain
      `bcrypt.compare` against the stored hash, because no stored hash was
      made from "". */
  lemma EmptyGuardRedundantOnWellFormedStore(store: Store, id: string, p: string)
    requires Invariant(store)
    requires Find(store, id).Found? && IsProtected(Find(store, id).image)
    ensures MayStream(PasswordGate(Some(p)), Find(store, id).image)
            <==> Matches(p, Find(store, id).image.password.value)
  {
  }

  // ---------------------------------------------------------------------------
  // The router

  /** One request to the image router, already matched to its route. */
  datatype Request =
    | List
    | Check(id: string)
    | PutPassword(id: string, password: Option<string>)
    | VerifyPasswordRequest(id: string, password: Option<string>)
    | Upload(file: Option<UploadedFile>, password: Option<string>)
    | View(id: string, password: Option<string>)
    | ServeRequest(id: string)
    | Public(id: string)
    | Delete(id: string)

  /** Everything but the check, view and public routes is mounted behind
      `verifyToken` (the middleware of auth.js). */
  predicate RequiresToken(req: Request)
  {
    !(req.Check? || req.View? || req.Public?)
  }

  /** The routes that can write to the store. */
  predicate Writes(req: Request)
  {
    req.PutPassword? || req.Upload? || req.Delete?
  }

  /** What the outside world supplies to one request: the keyring of the
      signing secret, the clock, the files on disk, bcrypt's salt and the
      id Mongo would give a new record. */
  datatype Env = Env(keys: Keyring, now: int, files: set<string>, salt: Salt, newId: ObjectId)

  /** The routes that need no token. */
  function OpenRoute(store: Store, env: Env, req: Request): (s: Step)
    requires !RequiresToken(req)
    ensures s.store == store
  {
    match req
    case Check(id) => Step(CheckProtection(store, id), store)
    case View(id, password) => Step(ViewImage(store, id, password, env.files), store)
    case Public(id) => Step(ServePublicImage(store, id, env.files), store)
  }

  /** The token routes other than the list, for the caller `userId`. */
  function TokenRoute(store: Store, userId: string, env: Env, req: Request): (s: Step)
    requires RequiresToken(req) && !req.List?
    ensures !Writes(req) ==> s.store == store
  {
    match req
    case PutPassword(id, password) => SetPassword(store, userId, id, password, env.salt)
    case VerifyPasswordRequest(id, password) => Step(VerifyPassword(store, userId, id, password), store)
    case Upload(file, password) => UploadImage(store, userId, file, password, env.salt, env.newId, env.now)
    case ServeRequest(id) => Step(ServeImage(store, userId, id, env.files), store)
    case Delete(id) => DeleteImage(store, userId, id)
  }

  /** The router: the token gate, then the handler. */
  method Handle(store: Store, header: Option<string>, env: Env, req: Request) returns (s: Step)
    ensures !RequiresToken(req) ==> s == OpenRoute(store, env, req)
    ensures RequiresToken(req) && RequireBearer(header, env.keys, env.now).Reject? ==>
              s == Step(Unauthorized(RequireBearer(header, env.keys, env.now).message), store)
    ensures RequiresToken(req) && RequireBearer(header, env.keys, env.now).Next? && !req.List? ==>
              s == TokenRoute(store, RequireBearer(header, env.keys, env.now).user.id, env, req)
    ensures req.List? && RequireBearer(header, env.keys, env.now).Next? ==>
              var userId := RequireBearer(header, env.keys, env.now).user.id;
              && s.store == store
              && (IsObjectIdText(userId) ==> s.reply.Images? && IsOwnListing(store, Cast(userId), s.reply.entries))
    ensures req.List? && RequireBearer(header, env.keys, env.now).Next? &&
            !IsObjectIdText(RequireBearer(header, env.keys, env.now).user.id) ==>
              s == Step(ServerError, store)
    ensures !Writes(req) ==> s.store == store
    ensures Invariant(store) ==> Invariant(s.store)
  {
    if !RequiresToken(req) {
      return OpenRoute(store, env, req);
    }
    match RequireBearer(header, env.keys, env.now)
    case Reject(message) =>
      return Step(Unauthorized(message), store);
    case Next(user) =>
      if req.List? {
        var reply := ListImages(store, user.id);
        return Step(reply, store);
      }
      s := TokenRoute(store, user.id, env, req);
      match req {
        case PutPassword(id, password) =>
          if Invariant(store) { WritersPreserveInvariant(store, user.id, id, password, env.salt); }
        case Delete(id) =>
          if Invariant(store) { WritersPreserveInvariant(store, user.id, id, None, env.salt); }
        case Upload(file, password) =>
          if Invariant(store) {
            UploadPreservesInvariant(store, user.id, file, password, env.salt, env.newId, env.now);
          }
        case _ =>
      }
  }
}

=== FILE: jwt.dfy ===
/** The session tokens of `jsonwebtoken` with the signature abstracted away.
    The process-wide secret is represented by the `Keyring` it induces: the
    token strings whose signature checks under that secret, each with the
    claims it carries. Time is in whole seconds, as in JWT `iat`/`exp`. */
module Jwt {

  import opened Basics

  /** `expiresIn: '1h'`. */
  const ExpiresIn: nat := 3600

  datatype Claims = Claims(id: string, iat: int, exp: int)

  /** Token strings whose signature is valid under the secret, and what
      they decode to. Every other string fails signature or format checks. */
  type Keyring = map<string, Claims>

  /** The claims of `jwt.sign({ id }, secret, { expiresIn: '1h' })` issued at
      time `now`: the payload is the id alone, plus the library's `iat`
      and the derived `exp`. */
  function Sign(id: string, now: int): (c: Claims)
    ensures c.id == id && c.iat == now && c.exp - c.iat == ExpiresIn
  {
    Claims(id, now, now + ExpiresIn)
  }

  /** `jwt.verify(token, secret)` at time `now`: an empty token is rejected
      ("jwt must be provided"), an unsigned one fails, and a signed one is
      expired once `now >= exp`. `None` stands for every thrown error. */
  function Verify(keys: Keyring, token: string, now: int): (r: Option<Claims>)
    ensures r.Some? <==> token != "" && token in keys && now < keys[token].exp
    ensures r.Some? ==> r.value == keys[token]
  {
    if token == "" || token !in keys then None
    else if now >= keys[token].exp then None
    else Some(keys[token])
  }

  /** A token minted at `issued` verifies to its own claims, carrying the
      same account id, exactly during the hour that follows (and, as the
      library does not check `iat`, at any earlier time). */
  lemma SignVerifyRoundTrip(keys: Keyring, token: string, id: string, issued: int, now: int)
    requires token != "" && token in keys && keys[token] == Sign(id, issued)
    ensures Verify(keys, token, now).Some? <==> now < issued + ExpiresIn
    ensures Verify(keys, token, now).Some? ==> Verify(keys, token, now).value.id == id
  {
  }

  /** The boundary instances of `SignVerifyRoundTrip`: exactly at the end
      of the hour, and one second later, the token is refused. */
  lemma ExpiredAfterOneHour(keys: Keyring, token: string, id: string, issued: int)
    requires token != "" && token in keys && keys[token] == Sign(id, issued)
    ensures Verify(keys, token, issued + ExpiresIn).None?
    ensures Verify(keys, token, issued + ExpiresIn + 1).None?
  {
  }
}

=== FILE: lists.dfy ===
/** Sequence helpers shared by the client components: `Array.prototype.filter`
    and the order-preserving subsequence relation it produces. */
module Lists {

  /** `sub` is `s` with some elements left out, in the original order. */
  predicate IsSubsequence<T(==)>(sub: seq<T>, s: seq<T>)
    decreases |s|
  {
    if sub == [] then true
    else if s == [] then false
    else if sub[0] == s[0] then IsSubsequence(sub[1..], s[1..])
    else IsSubsequence(sub, s[1..])
  }

  /** `s.filter(keep)`: every element that passes, as often as it occurs,
      in its original order. */
  function Filter<T(==,!new)>(s: seq<T>, keep: T -> bool): (r: seq<T>)
    ensures |r| <= |s|
    ensures forall x :: x in r <==> x in s && keep(x)
    ensures IsSubsequence(r, s)
    ensures forall x :: multiset(r)[x] == if keep(x) then multiset(s)[x] else 0
  {
    if s == [] then []
    else
      assert s == [s[0]] + s[1..];
      if keep(s[0]) then [s[0]] + Filter(s[1..], keep)
      else Filter(s[1..], keep)
  }

  /** A filter that keeps every element keeps the list as it is. */
  lemma {:induction false} FilterKeepsAll<T(!new)>(s: seq<T>, keep: T -> bool)
    ensures (forall x | x in s :: keep(x)) ==> Filter(s, keep) == s
  {
    if s != [] && forall x | x in s :: keep(x) {
      FilterKeepsAll(s[1..], keep);
      assert s == [s[0]] + s[1..];
    }
  }
}

=== FILE: object_ids.dfy ===
/** MongoDB object identifiers as they travel through the routes: 24 hex
    digits. A route parameter or token claim that does not have this shape
    makes Mongoose's cast fail, which the handlers' `catch` turns into a
    500 "Server error". */
module ObjectIds {

  import opened Strings

  predicate IsHexDigit(c: char)
  {
    '0' <= c <= '9' || 'a' <= c <= 'f' || 'A' <= c <= 'F'
  }

  predicate IsLowerHexDigit(c: char)
  {
    '0' <= c <= '9' || 'a' <= c <= 'f'
  }

  /** Text Mongoose accepts as an ObjectId (either letter case). */
  predicate IsObjectIdText(s: string)
  {
    |s| == 24 && forall i | 0 <= i < |s| :: IsHexDigit(s[i])
  }

  /** The form `ObjectId.toString()` prints: 24 lower-case hex digits. */
  predicate IsCanonical(s: string)
  {
    |s| == 24 && forall i | 0 <= i < |s| :: IsLowerHexDigit(s[i])
  }

  type ObjectId = s: string | IsCanonical(s) witness "000000000000000000000000"

  /** The ObjectId a well-formed text casts to, as `toString()` prints it. */
  function Cast(s: string): (id: ObjectId)
    requires IsObjectIdText(s)
  {
    Lower(s)
  }

  /** Printing a stored id and casting it back gives the same id. */
  lemma CastCanonical(id: ObjectId)
    ensures IsObjectIdText(id)
    ensures Cast(id) == id
  {
  }

  /** Two texts cast to the same id exactly when they agree up to letter case. */
  lemma CastAgreesUpToCase(a: string, b: string)
    requires IsObjectIdText(a) && IsObjectIdText(b)
    ensures Cast(a) == Cast(b) <==> forall i | 0 <= i < 24 :: LowerChar(a[i]) == LowerChar(b[i])
  {
    if forall i | 0 <= i < 24 :: LowerChar(a[i]) == LowerChar(b[i]) {
      assert Lower(a) == Lower(b);
    }
    if Cast(a) == Cast(b) {
      forall i | 0 <= i < 24 ensures LowerChar(a[i]) == LowerChar(b[i]) {
        assert Lower(a)[i] == Lower(b)[i];
      }
    }
  }
}

=== FILE: strings.dfy ===
/** The handful of JavaScript string operations the core relies on:
    `startsWith`, `includes`, ASCII `toLowerCase`, and `split(' ')`. */
module Strings {

  import opened Basics

  predicate StartsWith(s: string, prefix: string)
  {
    |prefix| <= |s| && s[..|prefix|] == prefix
  }

  // ---------------------------------------------------------------------------
  // includes

  /** `needle` sits in `hay` starting at position `i`. */
  predicate OccursAt(needle: string, hay: string, i: int)
  {
    0 <= i <= |hay| - |needle| && hay[i..i + |needle|] == needle
  }

  /** Reference definition of "needle occurs somewhere in hay". */
  ghost predicate Occurs(needle: string, hay: string)
  {
    exists i :: OccursAt(needle, hay, i)
  }

  /** `hay.includes(needle)`: scans the start positions left to right. */
  function Includes(hay: string, needle: string): (b: bool)
    ensures b <==> Occurs(needle, hay)
    decreases |hay|
  {
    if StartsWith(hay, needle) then
      assert OccursAt(needle, hay, 0);
      true
    else if |hay| <= |needle| then
      assert |hay| == |needle| ==> hay[..|needle|] == hay[0..0 + |needle|];
      false
    else
      var b := Includes(hay[1..], needle);
      OccursShift(needle, hay);
      b
  }

  /** When `needle` is not a prefix of a longer `hay`, it occurs in `hay`
      exactly when it occurs in `hay[1..]`. */
  lemma OccursShift(needle: string, hay: string)
    requires |hay| > |needle|
    requires !StartsWith(hay, needle)
    ensures Occurs(needle, hay) <==> Occurs(needle, hay[1..])
  {
    var n := |needle|;
    if Occurs(needle, hay) {
      var i :| OccursAt(needle, hay, i);
      assert i != 0 by { assert hay[..n] == hay[0..0 + n]; }
      assert hay[1..][i - 1..i - 1 + n] == hay[i..i + n];
      assert OccursAt(needle, hay[1..], i - 1);
    }
    if Occurs(needle, hay[1..]) {
      var j :| OccursAt(needle, hay[1..], j);
      assert hay[j + 1..j + 1 + n] == needle by {
        forall k | 0 <= k < n ensures hay[j + 1..j + 1 + n][k] == needle[k] {
          assert hay[1..][j..j + n][k] == needle[k];
        }
      }
      assert OccursAt(needle, hay, j + 1);
    }
  }

  /** The empty search term occurs in every string. */
  lemma EmptyOccursEverywhere(hay: string)
    ensures Includes(hay, "")
  {
  }

  // ---------------------------------------------------------------------------
  // toLowerCase (ASCII letters only)

  function LowerChar(c: char): char
  {
    if 'A' <= c <= 'Z' then (c as int + 32) as char else c
  }

  function Lower(s: string): string
  {
    seq(|s|, i requires 0 <= i < |s| => LowerChar(s[i]))
  }

  // ---------------------------------------------------------------------------
  // split(' ')

  /** Number of space characters in `s`. */
  function Spaces(s: string): nat
  {
    if s == "" then 0 else (if s[0] == ' ' then 1 else 0) + Spaces(s[1..])
  }

  /** `s.split(' ')`: cuts at every single space, so neighbouring spaces give
      empty fields and a string without spaces gives one field. The first
      field is the longest space-free prefix of `s`. */
  function Split(s: string): (fields: seq<string>)
    ensures |fields| == Spaces(s) + 1
    ensures forall k | 0 <= k < |fields| :: ' ' !in fields[k]
    ensures fields[0] <= s
    ensures |fields[0]| < |s| ==> s[|fields[0]|] == ' '
  {
    if s == "" then [""]
    else
      var rest := Split(s[1..]);
      if s[0] == ' ' then [""] + rest
      else [[s[0]] + rest[0]] + rest[1..]
  }

  /** `fields.join(' ')`. */
  function Join(fields: seq<string>): string
    requires |fields| >= 1
  {
    if |fields| == 1 then fields[0] else fields[0] + " " + Join(fields[1..])
  }

  /** `s.split(' ')[i]`, which is `undefined` past the last field. */
  function Field(s: string, i: nat): Option<string>
  {
    var fields := Split(s);
    if i < |fields| then Some(fields[i]) else None
  }

  /** Splitting loses nothing: joining the fields with single spaces gives
      back the original string. */
  lemma {:induction false} JoinSplit(s: string)
    ensures Join(Split(s)) == s
  {
    if s != "" {
      var rest := Split(s[1..]);
      JoinSplit(s[1..]);
      if s[0] == ' ' {
        assert ([""] + rest)[1..] == rest;
      } else {
        var fields := [[s[0]] + rest[0]] + rest[1..];
        if |rest| > 1 {
          assert fields[1..] == rest[1..];
          assert rest[0] + " " + Join(rest[1..]) == Join(rest);
        }
        assert Join(fields) == [s[0]] + Join(rest);
        assert s == [s[0]] + s[1..];
      }
    }
  }

  /** A space-free word in front of `t` merges into the first field of `t`. */
  lemma {:induction false} SplitAfterWord(w: string, t: string)
    requires ' ' !in w
    ensures Split(w + t) == [w + Split(t)[0]] + Split(t)[1..]
    decreases |w|
  {
    if w != "" {
      var s := w + t;
      assert s[0] == w[0] && w[0] != ' ';
      assert s[1..] == w[1..] + t;
      SplitAfterWord(w[1..], t);
      var rest := Split(s[1..]);
      assert rest[0] == w[1..] + Split(t)[0] && rest[1..] == Split(t)[1..];
      assert Split(s) == [[s[0]] + rest[0]] + rest[1..];
      assert [w[0]] + (w[1..] + Split(t)[0]) == w + Split(t)[0];
    } else {
      assert w + t == t;
      assert w + Split(t)[0] == Split(t)[0];
      assert Split(t) == [Split(t)[0]] + Split(t)[1..];
    }
  }

  /** Splitting undoes joining, for fields that hold no space. Together with
      `JoinSplit` this makes `Split` a bijection between strings and
      non-empty lists of space-free fields. */
  lemma {:induction false} SplitJoin(fields: seq<string>)
    requires |fields| >= 1
    requires forall k | 0 <= k < |fields| :: ' ' !in fields[k]
    ensures Split(Join(fields)) == fields
  {
    if |fields| == 1 {
      SplitAfterWord(fields[0], "");
      assert fields[0] + "" == fields[0];
    } else {
      var tail := Join(fields[1..]);
      SplitJoin(fields[1..]);
      assert Split(" " + tail) == [""] + Split(tail) by {
        assert (" " + tail)[1..] == tail;
      }
      SplitAfterWord(fields[0], " " + tail);
      assert fields[0] + " " + tail == fields[0] + (" " + tail);
      assert fields[0] + "" == fields[0];
      assert ([""] + fields[1..])[1..] == fields[1..];
      assert fields == [fields[0]] + fields[1..];
    }
  }

  /** After a space-free word and one space, the second field is the first
      field of the rest: "Bearer a b" gives "a", "Bearer  x" gives "". */
  lemma SecondFieldAfterWord(w: string, rest: string)
    requires ' ' !in w
    ensures Field(w + " " + rest, 1) == Some(Split(rest)[0])
  {
    SplitAfterWord(w, " " + rest);
    assert w + " " + rest == w + (" " + rest);
    assert (" " + rest)[1..] == rest;
  }
}
